=== FILE: README.md ===
# Time-range handling of the OANDA connection, in Dafny

This project models the part of `oanda/connect.py` (class `Connect`) that turns
a requested time range into a query against the OANDA candle service, and
re-slices a locally stored candle snapshot:

- `validate_datetime` parses a start or end instant and works out the bar
  period from the granularity name (`D`, `H<n>`, `M<n>`; multi-day names such
  as `2D` are refused). It then asks the provider whether the period starting
  at that instant holds a candle. On "204 No Content" it either fails (market
  closed) or rolls the instant forward.
- `__roll_datetime` clamps an instant that precedes the instrument's
  historical start to that start. Otherwise it steps forward one period at a
  time until the provider reports a candle.
- `try_parsing_date` reads the historical-start registry in either of two
  layouts.
- `query` assembles the request parameters. The start is validated. An end is
  validated and widened by one minute, but only when no count is given. A
  count wins over an end. Neither is an error.
- `__parse_ser_data` slices a stored snapshot by start and end, or by start and
  count, with a one-hour tolerance at each edge.
- `__validate_end` checks that the last candle matches the requested end: the
  same instant, or the same date with time-of-day at most one hour apart.

Modules, one per file:

| file | module | contents |
|---|---|---|
| `outcomes.dfy` | `Outcomes` | `Option`, `Result`, `Outcome` and the error taxonomy, one constructor per exception the code raises |
| `decimal.dfy` | `Decimal` | digit strings: value, zero-padded and shortest spellings |
| `datetimes.dfy` | `DateTimes` | the slice of Python `datetime` used: strict `strptime` in two layouts, `isoformat`, comparison, `.date()`/`.time()` |
| `granularity.dfy` | `Granularities` | granularity names and their periods in seconds |
| `snapshot.dfy` | `Snapshots` | the snapshot slice: the source loop and declarative reference definitions |
| `connect.dfy` | `Connect` | validation, rolling, query assembly, end tolerance |
| `scenarios.dfy` | `Scenarios` | concrete walk-throughs on a written-out market calendar |

Instants are whole seconds since 0001-01-01T00:00:00. The lemmas in
`DateTimes` show three things about this numbering:

- it preserves and reflects Python's `datetime` order;
- it is injective;
- `.date()` and `.time()` become quotient and remainder by one day.

All network and configuration reads become parameters:

- The HTTP probe is a function `probe(start, end) -> status`, already bound
  to the connection's instrument and granularity.
- The `roll` flag and the `pairs_start` registry come in a `Config`.

## Model

| member | source | states |
|---|---|---|
| Decimal.ValueOfPadded | oanda/connect.py:195 | reading back a zero-padded field of a formatted timestamp gives the number written, when it fits the width |
| Decimal.PaddedOfValue | oanda/connect.py:195 | every fixed-width digit field is the padded spelling of the number `strptime` reads from it, so the parser accepts only one spelling |
| Decimal.ValueOfUnpadded | oanda/connect.py:211-212 | `int(str(n)) == n` for natural numbers |
| DateTimes.ParseWith | oanda/connect.py:195-197 | `strptime` either yields a valid calendar date-time or fails with the format error naming the input |
| DateTimes.TryParsingDate | oanda/connect.py:357-362 | succeeds exactly when one of the two layouts (ISO `T` first, then space) parses; otherwise fails with "no valid date format" |
| DateTimes.ParseFormat | oanda/connect.py:142 | formatting a valid date-time (`isoformat`, or `str` with a space) and parsing it back gives the same date-time |
| DateTimes.FormatParse | oanda/connect.py:195 | whatever parses is the canonical spelling of its result: formatting it gives back the input text |
| DateTimes.TryParsingDateAcceptsBoth | oanda/connect.py:357-362 | both layouts of every valid date-time are accepted and give that date-time |
| DateTimes.PrecedesIffEarlier | oanda/connect.py:272 | Python's field-by-field `datetime <` holds exactly when the first instant has fewer seconds |
| DateTimes.ToSecondsInjective | oanda/connect.py:326 | two date-times with the same seconds are equal, so `!=` on instants is `!=` on date-times |
| DateTimes.DateAndTimeOfSeconds | oanda/connect.py:328-334 | `.date()` is the quotient and `.time()` the remainder of the instant by one day |
| DateTimes.SameDateIffSameDay | oanda/connect.py:334 | `a.date() == b.date()` exactly when the instants fall on the same day number |
| Granularities.ParseInt | oanda/connect.py:211 | `int()` succeeds exactly when, after an optional `+` or `-`, the text is a non-empty string of ASCII digits; otherwise it fails with the count error naming its input |
| Granularities.ParseIntOfPadded | oanda/connect.py:211 | `int()` reads a digit string of any width, leading zeros included, with an optional `+` or `-`, as the signed number it spells |
| Granularities.RemoveAll | oanda/connect.py:211 | `str.replace(c, '')` leaves no `c` and keeps every other character exactly as often as it occurs in the input |
| Granularities.RemoveAllConcat | oanda/connect.py:211 | removal works piecewise over a concatenation, so the surviving characters keep their order |
| Granularities.ParseGranularity | oanda/connect.py:204-218 | a daily period exactly for `"D"`; H- and M-periods only for names starting with that letter; such a name fails exactly when `int()` rejects what is left once every copy of the letter is removed, and with that error; any other name has no period |
| Granularities.ParseGranularityReadsCount | oanda/connect.py:208-218 | an accepted `H` or `M` name reads as the count `int()` finds once every copy of its letter is removed, so `H1H3` is thirteen hours and `HH5` five |
| Granularities.DeltaOfUnitName | oanda/connect.py:208-218 | a unit letter followed by any text gives that text, with every further copy of the letter removed, as the count of hours or minutes |
| Granularities.ParseIntOfIntToString | oanda/connect.py:211-212 | `int(str(n)) == n` for every integer, sign included |
| Granularities.ParseName | oanda/connect.py:204-218 | every granularity is recovered from its own name |
| Granularities.DeltaOfName | oanda/connect.py:204-218 | `D` is 86400 s, `H<n>` is n·3600 s, `M<n>` is n·60 s, for any integer n |
| Granularities.DeltaOfPaddedName | oanda/connect.py:208-218 | non-canonical counts such as `H05`, `H+5` or `M-007` give the period their digits spell, in hours or minutes |
| Granularities.MultiDayPrefix | oanda/connect.py:199-202 | `MultiDayPattern`, the `re.match("\dD")` test, holds exactly for the names that begin with a decimal digit followed by `D`, whatever follows |
| Granularities.MultiDayHasNoPeriod | oanda/connect.py:199-207 | a `<digit>D` name matches none of the D/H/M branches |
| Granularities.DeltaOfAnyName | oanda/connect.py:204-218 | `Delta`, the period in seconds: `D` is 86400 s; an `H` or `M` name is the count `int()` reads once every copy of the letter is removed, times 3600 s or 60 s, and fails exactly when that read fails, with its error; any other name is unknown |
| Granularities.ZeroHourCountIffZeroStep | oanda/connect.py:238-242 | `ZeroHourCount`: the step of `range(0, 24, nhours)` is zero exactly for an `H` name whose count reads as zero; such a name has a period of zero seconds |
| Snapshots.KeepFromMembers | oanda/connect.py:89 | a candle survives the start test exactly when it is at or after the start less one hour |
| Snapshots.FirstPast | oanda/connect.py:92-93 | the break position: every earlier candle is within an hour of the end, the one there is more than an hour past it |
| Snapshots.EndSlice | oanda/connect.py:85-93 | every kept candle is from the input and within an hour of `[start, end]` |
| Snapshots.CountSlice | oanda/connect.py:94-99 | at most `count` candles, as many as are eligible up to `count`, each from the input and at or after start less one hour |
| Snapshots.ScanUntil | oanda/connect.py:85-93 | the end-bounded loop, `break` included, computes exactly the reference end slice |
| Snapshots.ScanCount | oanda/connect.py:94-99 | the count-bounded loop computes exactly the first `count` eligible candles |
| Snapshots.KeepFromPrefix | oanda/connect.py:94-99 | filtering a prefix of the candles gives a prefix of filtering all of them |
| Snapshots.ParseSerData | oanda/connect.py:81-103 | every key but `candles` is copied; `candles` becomes the slice the parameters select |
| Snapshots.KeepFromIsSubsequence | oanda/connect.py:89 | the start filter only drops candles and keeps their order |
| Snapshots.EndSliceIsSubsequence | oanda/connect.py:85-93 | the end-bounded slice only drops candles and keeps their order |
| Snapshots.CountSliceIsSubsequence | oanda/connect.py:94-99 | the count-bounded slice only drops candles and keeps their order |
| Snapshots.KeepFromAllEligible | oanda/connect.py:89 | when every candle passes the start test, nothing is dropped |
| Snapshots.EndSliceKeepsWindow | oanda/connect.py:85-93 | a snapshot lying within an hour of the window comes back whole |
| Snapshots.EndSliceIdempotent | oanda/connect.py:85-93 | slicing an end-bounded slice again with the same bounds changes nothing |
| Snapshots.CountSliceIdempotent | oanda/connect.py:94-99 | slicing a count-bounded slice again with the same start and count changes nothing |
| Snapshots.SortedEndSlice | oanda/connect.py:89-93 | on time-ordered candles the early `break` loses nothing: the slice is every candle within an hour of the window |
| Connect.ScanFrom | oanda/connect.py:293-307 | the loop stops at the first step whose probe does not answer 204; every earlier step answered 204; running out of probes means all of them did |
| Connect.HistoricalStart | oanda/connect.py:268-271 | a missing instrument is the "inexistent start" error; otherwise the registry text is read in either layout, giving the instant the parsed date-time denotes, or fails with "no valid date format" |
| Connect.HistoricalStartOfEntry | oanda/connect.py:268-271 | a registry entry written in either accepted layout stands for exactly the instant it spells |
| Connect.RollDatetime | oanda/connect.py:267-309 | registry errors propagate; an instant before the historical start becomes that start; otherwise a name without a period fails, the result is `t + k·p` for the first open step k, and a failed scan means every budgeted step answered 204; with a positive period the result is later than `t` |
| Connect.FirstOpenStepUnique | oanda/connect.py:295-307 | the loop's stopping step is unique |
| Connect.RollFindsFirstOpenStep | oanda/connect.py:293-309 | when the first open step is within the probe budget, the roll returns exactly `t + k·p` |
| Connect.ClampIgnoresProvider | oanda/connect.py:272-276 | clamping to the historical start issues no probe: any two providers give the same answer |
| Connect.ValidateDatetime | oanda/connect.py:193-248 | bad format and `<digit>D` names fail before any probe; a name without a period fails; an open first period keeps the instant; a closed one fails with "closed market" or gives exactly the roll's result, failures included, as `roll` says; an hour count of zero then fails, after the probe and any roll |
| Connect.ZeroHourNeverValidates | oanda/connect.py:238-242 | an `H` count of zero never validates, whatever the provider answers and whatever the `roll` setting |
| Connect.MultiDayRefusedWithoutProbe | oanda/connect.py:199-203 | a multi-day name is refused whatever the provider answers |
| Connect.ValidateNeverEarlier | oanda/connect.py:232-248 | with a positive period a validated instant is never before the requested one |
| Connect.RollLandsOnFirstTradedPeriod | oanda/connect.py:293-307 | every roll probe starts at the original instant, yet against a truthful provider the roll lands on the first period holding a candle, with none between the original instant and it |
| Connect.ValidatedInstantStartsTradedPeriod | oanda/connect.py:220-236 | against a truthful provider, a validated instant opens a period that holds a candle, and no candle lies between the requested instant and it; the requested instant must not precede the historical start when the instrument has one, and an instrument without one is covered too |
| Connect.Query | oanda/connect.py:141-157 | start errors propagate; the start is the validated one; a count wins and is passed as is; an end alone succeeds exactly when it validates, is then widened by one minute, and otherwise its validation error is the result; no bound is an error |
| Connect.CountIgnoresEnd | oanda/connect.py:144-151 | with a count the end is never looked at: any two ends give the same result |
| Connect.QuerySnapshot | oanda/connect.py:141-159 | with a local snapshot, `query` returns the snapshot sliced by the assembled parameters, or the assembly error |
| Connect.ValidateEnd | oanda/connect.py:325-339 | passes exactly when there is a last candle on the requested end's day and within an hour of it; otherwise fails, with "no candles" for an empty list |
| Connect.EndToleranceOnDates | oanda/connect.py:325-339 | in calendar terms: passes exactly when the date-times are equal, or share a date and their times of day differ by at most an hour |
| Scenarios.FridayEveningRollsToSunday | oanda/tests/test_connect.py:71-72 | AUD_USD daily from Friday 2018-04-27 21:00, market closed, roll on: the instant rolls two days to the Sunday 21:00 open |
| Scenarios.SplitHourName | oanda/connect.py:208-212 | every `H` is removed before `int()`, so `H1H2` is a twelve-hour period |
| Scenarios.ZeroHourSpellings | oanda/connect.py:208-212 | `H0`, `H00` and `H-0` all read as an hour count of zero |
| Scenarios.StoredBarsSlices | oanda/connect.py:85-99 | on the ten daily AUD_USD bars from 2015-01-25 that the snapshot tests store: Thursday to Sunday holds two bars, three bars from Thursday are Thursday, Sunday and Monday, and a 2010 start returns the snapshot from its first bar up to the Sunday |

## Left out

- HTTP, configuration and file I/O are not modelled: `requests.get`, `CONFIG`, `open`/`json.load`/`json.dump`. The provider becomes the `probe` parameter. The configuration becomes `Config`. The snapshot is taken already decoded.
- Candle times in a snapshot are taken as already-parsed instants. The `%Y-%m-%dT%H:%M:%S.%fZ` parse and its fractional seconds are not modelled.
- The `retry` decorator, logging, `print_url`, `__repr__`/`__str__` and the constructor are not modelled. They hold no logic about time ranges.
- The remote error path of `query` (lines 161-179) is not modelled: a non-200 status is returned, or printed and returned. It depends only on the network.
- The `valid_time` lists built at lines 238-247 are not modelled, because nothing reads them. Building them raises for an `H` count of zero (`range` with a step of zero), and that failure is modelled as `ZeroHourStep`.
- `__validate_end` reads `self.data`, which nothing in the class assigns. The model takes the candle list as a parameter.
- Connect.ValidateEnd: the two reads of the clock through `datetime.date.today()` at `connect.py:330-331` are left out. Both times of day are put on one common day. In the source a midnight crossing between the two reads puts them on different days, and a candle within the hour's tolerance is then rejected.
- `validate_datetime` is modelled with the connection's own granularity. `query` always passes `self.granularity`, so the two names it uses coincide.
- Connect.RollDatetime: the source loop is unbounded and never ends when no later period is ever open, for instance with a zero period such as `H0`. The model allows `Config.rollBudget` probes and then fails with `RollBudgetExhausted`.
- Connect.ScanFrom: bounded by the same probe budget as `RollDatetime`.
- DateTimes.ParseWith: models strict fixed-width fields. The year is exactly four digits, as in Python, but Python's `strptime` also accepts one-digit months, days, hours, minutes and seconds, and a space before a one-digit day.
- DateTimes.ParseWith: takes a digit to be an ASCII digit. Python's `strptime` builds its pattern from a `str`, so `\d` also matches other Unicode decimal digits, and a fullwidth year such as `２０１８` also parses.
- DateTimes.ParseWith: is case-sensitive. Python compiles the format with `IGNORECASE`, so `2018-04-27t21:00:00` also parses.
- DateTimes.ParseWith: takes the space of the registry layout literally. Python turns whitespace in a format into `\s+`, so `try_parsing_date` also accepts a tab or several spaces there.
- Connect.ValidateDatetime: the addition of one period at `connect.py:221` raises `OverflowError` in Python when the result leaves years 1 to 9999, for instance for `"9999-12-31T23:00:00"` with `D`, or for `"0001-01-01T00:00:00"` with `H-1`. Building the period at `connect.py:212` and `connect.py:218` also raises when the count exceeds 999999999 days. The model's instants and periods are unbounded integers, so it fails in none of these cases.
- Connect.RollDatetime: the additions at `connect.py:296-297` overflow in Python in the same way, past year 9999 or, with a negative period, before year 1. Building the period at `connect.py:286` and `connect.py:291` raises beyond 999999999 days as well. The model keeps adding periods to unbounded instants.
- Connect.Query: the one-minute widening of the end at `connect.py:147` overflows in Python for an end in the last minute of year 9999. The model does not.
- Granularities.ParseInt: models only an optional sign and ASCII digits. It leaves out `int()`'s surrounding whitespace, underscores and non-ASCII digits.
- Granularities.MultiDayHasNoPeriod: `\d` is taken as an ASCII digit, whereas Python's `re` also matches Unicode digits.
- Granularities.MultiDayPrefix: takes `\d` as an ASCII digit in the same way.
- Connect.HistoricalStart: looks instruments up case-sensitively. `configparser` folds option names to lower case.
- `ser_data_obj` is not part of this model.

=== FILE: connect.dfy ===
/** The time-range handling of `Connect` in `oanda/connect.py`:
    validating a requested instant against the market calendar
    (`validate_datetime`), rolling a closed-market instant forward
    (`__roll_datetime`), assembling the query parameters (`query`) and the
    end-of-range tolerance check (`__validate_end`).

    Everything the source reads from the network or from its configuration
    is a parameter here: the provider's answer to "any candle in this window?"
    is the function `probe`, already bound to the connection's instrument and
    granularity, and the `roll` flag and the per-instrument historical-start
    registry come in a `Config`. Instants are whole seconds since
    0001-01-01T00:00:00 (see `DateTimes`). */
module Connect {
  import opened Outcomes
  import opened DateTimes
  import opened Granularities
  import opened Snapshots

  /** HTTP status the provider answers for the window `[start, end]`. */
  type Probe = (int, int) -> int

  /** "No content": the window holds no candle, the market was closed. */
  const NoContent: int := 204

  /** The widening `query` applies to a validated end instant. */
  const OneMinute: int := 60

  datatype Connection = Connection(instrument: string, granularity: string)

  /** `rollBudget` bounds the number of probes one roll may issue; the source
      has no such bound. */
  datatype Config = Config(roll: bool, pairsStart: map<string, string>, rollBudget: nat)

  // ---------------------------------------------------------------------
  // Rolling forward

  /** Step `k` of the roll probes the window from the ORIGINAL instant `t` to
      one period past the candidate `t + k * p`. Step 0 is the probe made by
      `validate_datetime` itself. */
  predicate StepClosed(probe: Probe, t: int, p: int, k: int) {
    probe(t, t + (k + 1) * p) == NoContent
  }

  /** `k` is the first step at or after 1 whose probe does not answer 204. */
  predicate FirstOpenStep(probe: Probe, t: int, p: int, k: int) {
    && k >= 1
    && !StepClosed(probe, t, p, k)
    && forall j :: 1 <= j < k ==> StepClosed(probe, t, p, j)
  }

  /** The `while resp_code == 204` loop from step `k` on, allowed `fuel` more
      probes. After `k` passes the loop's `startObj` is `t + k * p` and its
      probe ends at `startObj + p`. Returns the step at which it stops. */
  function ScanFrom(probe: Probe, t: int, p: int, k: nat, fuel: nat): (r: Result<nat>)
    decreases fuel
    ensures r.Ok? ==> k <= r.value < k + fuel && !StepClosed(probe, t, p, r.value)
    ensures r.Ok? ==> forall j :: k <= j < r.value ==> StepClosed(probe, t, p, j)
    ensures r.Err? ==> r.error == RollBudgetExhausted
    ensures r.Err? ==> forall j :: k <= j < k + fuel ==> StepClosed(probe, t, p, j)
  {
    if fuel == 0 then Err(RollBudgetExhausted)
    else if probe(t, t + (k + 1) * p) != NoContent then Ok(k)
    else ScanFrom(probe, t, p, k + 1, fuel - 1)
  }

  /** The registry entry for the connection's instrument, as an instant. */
  function HistoricalStart(conn: Connection, cfg: Config): (r: Result<int>)
    ensures conn.instrument !in cfg.pairsStart ==> r == Err(NoHistoricalStart(conn.instrument))
    ensures conn.instrument in cfg.pairsStart ==>
      var text := cfg.pairsStart[conn.instrument];
      && (r.Ok? <==> ParseWith(text, 'T').Ok? || ParseWith(text, ' ').Ok?)
      && (r.Err? ==> r.error == NoValidDateFormat(text))
      && (r.Ok? ==> r.value == ToSeconds(TryParsingDate(text).value))
  {
    if conn.instrument !in cfg.pairsStart then Err(NoHistoricalStart(conn.instrument))
    else
      var dt :- TryParsingDate(cfg.pairsStart[conn.instrument]);
      Ok(ToSeconds(dt))
  }

  /** A registry entry written in either accepted layout stands for the
      instant it spells. */
  lemma HistoricalStartOfEntry(conn: Connection, cfg: Config, dt: DateTime, sep: char)
    requires Valid(dt) && (sep == 'T' || sep == ' ')
    requires conn.instrument in cfg.pairsStart && cfg.pairsStart[conn.instrument] == FormatWith(dt, sep)
    ensures HistoricalStart(conn, cfg) == Ok(ToSeconds(dt))
  {
    TryParsingDateAcceptsBoth(dt);
  }

  /** `__roll_datetime`: clamp to the start of the instrument's history, or
      step forward one period at a time until a probe does not answer 204. */
  function RollDatetime(conn: Connection, cfg: Config, probe: Probe, t: int): (r: Result<int>)
    ensures HistoricalStart(conn, cfg).Err? ==> r == Err(HistoricalStart(conn, cfg).error)
    ensures HistoricalStart(conn, cfg).Ok? && t < HistoricalStart(conn, cfg).value ==>
      r == Ok(HistoricalStart(conn, cfg).value)
    ensures r.Ok? && HistoricalStart(conn, cfg).Ok? && t >= HistoricalStart(conn, cfg).value ==>
      && Delta(conn.granularity).Ok?
      && exists k :: 1 <= k <= cfg.rollBudget && FirstOpenStep(probe, t, Delta(conn.granularity).value, k)
                     && r.value == t + k * Delta(conn.granularity).value
    ensures HistoricalStart(conn, cfg).Ok? && t >= HistoricalStart(conn, cfg).value && Delta(conn.granularity).Err? ==>
      r == Err(Delta(conn.granularity).error)
    ensures HistoricalStart(conn, cfg).Ok? && t >= HistoricalStart(conn, cfg).value && Delta(conn.granularity).Ok? && r.Err? ==>
      && r.error == RollBudgetExhausted
      && forall j :: 1 <= j <= cfg.rollBudget ==> StepClosed(probe, t, Delta(conn.granularity).value, j)
    ensures r.Ok? && Delta(conn.granularity).Ok? && Delta(conn.granularity).value > 0 ==> r.value > t
  {
    var h :- HistoricalStart(conn, cfg);
    if t < h then Ok(h)
    else
      var p :- Delta(conn.granularity);
      var k :- ScanFrom(probe, t, p, 1, cfg.rollBudget);
      assert FirstOpenStep(probe, t, p, k);
      assert p > 0 ==> k * p > 0 by {
        if p > 0 { PositiveProduct(k, p); }
      }
      Ok(t + k * p)
  }

  lemma PositiveProduct(a: int, b: int)
    requires a > 0 && b > 0
    ensures a * b > 0
  {
  }

  /** There is at most one first open step. */
  lemma FirstOpenStepUnique(probe: Probe, t: int, p: int, k1: int, k2: int)
    requires FirstOpenStep(probe, t, p, k1) && FirstOpenStep(probe, t, p, k2)
    ensures k1 == k2
  {
    assert k1 < k2 ==> StepClosed(probe, t, p, k1);
    assert k2 < k1 ==> StepClosed(probe, t, p, k2);
  }

  /** Completeness of the scan: when the first open step is within the probe
      budget, the roll lands exactly on it. */
  lemma RollFindsFirstOpenStep(conn: Connection, cfg: Config, probe: Probe, t: int, k: nat)
    requires HistoricalStart(conn, cfg).Ok? && HistoricalStart(conn, cfg).value <= t
    requires Delta(conn.granularity).Ok?
    requires FirstOpenStep(probe, t, Delta(conn.granularity).value, k)
    requires k <= cfg.rollBudget
    ensures RollDatetime(conn, cfg, probe, t) == Ok(t + k * Delta(conn.granularity).value)
  {
    var p := Delta(conn.granularity).value;
    var s := ScanFrom(probe, t, p, 1, cfg.rollBudget);
    assert s.Err? ==> StepClosed(probe, t, p, k);
    assert FirstOpenStep(probe, t, p, s.value);
    FirstOpenStepUnique(probe, t, p, k, s.value);
  }

  /** Clamping to the start of history issues no probe: the answer does not
      depend on the provider. */
  lemma ClampIgnoresProvider(conn: Connection, cfg: Config, probe1: Probe, probe2: Probe, t: int)
    requires HistoricalStart(conn, cfg).Ok? && t < HistoricalStart(conn, cfg).value
    ensures RollDatetime(conn, cfg, probe1, t) == RollDatetime(conn, cfg, probe2, t)
            == Ok(HistoricalStart(conn, cfg).value)
  {
  }

  // ---------------------------------------------------------------------
  // Validating an instant

  /** `validate_datetime`: parse, reject multi-day bars, probe one period
      from the instant, and on 204 either fail or roll. An hour count of zero
      is refused only after all of that, when the hour table is built with a
      step of zero. */
  function ValidateDatetime(conn: Connection, cfg: Config, probe: Probe, datestr: string): (r: Result<int>)
    ensures ParseIso(datestr).Err? ==> r == Err(BadDateFormat(datestr))
    ensures ParseIso(datestr).Ok? && MultiDayPattern(conn.granularity) ==>
      r == Err(UnsupportedGranularity(conn.granularity))
    ensures ParseIso(datestr).Ok? && !MultiDayPattern(conn.granularity) && Delta(conn.granularity).Err? ==>
      r == Err(Delta(conn.granularity).error)
    ensures r.Ok? ==> ParseIso(datestr).Ok? && Delta(conn.granularity).Ok? && !ZeroHourCount(conn.granularity)
    ensures r.Ok? ==>
      var t := ToSeconds(ParseIso(datestr).value);
      var p := Delta(conn.granularity).value;
      || (probe(t, t + p) != NoContent && r.value == t)
      || (probe(t, t + p) == NoContent && cfg.roll && r == RollDatetime(conn, cfg, probe, t))
    ensures ParseIso(datestr).Ok? && !MultiDayPattern(conn.granularity) && Delta(conn.granularity).Ok? ==>
      var t := ToSeconds(ParseIso(datestr).value);
      var p := Delta(conn.granularity).value;
      var zero := ZeroHourCount(conn.granularity);
      && (probe(t, t + p) != NoContent ==>
            r == (if zero then Err(ZeroHourStep(conn.granularity)) else Ok(t)))
      && (probe(t, t + p) == NoContent && !cfg.roll ==> r == Err(ClosedMarket(datestr)))
      && (probe(t, t + p) == NoContent && cfg.roll ==>
            var rolled := RollDatetime(conn, cfg, probe, t);
            r == (if rolled.Ok? && zero then Err(ZeroHourStep(conn.granularity)) else rolled))
  {
    var dt :- ParseIso(datestr);
    if MultiDayPattern(conn.granularity) then Err(UnsupportedGranularity(conn.granularity))
    else
      var p :- Delta(conn.granularity);
      var t := ToSeconds(dt);
      var landed :-
        if probe(t, t + p) == NoContent then
          if cfg.roll then RollDatetime(conn, cfg, probe, t)
          else Err(ClosedMarket(datestr))
        else Ok(t);
      if ZeroHourCount(conn.granularity) then Err(ZeroHourStep(conn.granularity))
      else Ok(landed)
  }

  /** An hour count of zero never validates, whatever the provider answers
      and whether or not rolling is on. */
  lemma ZeroHourNeverValidates(conn: Connection, cfg: Config, probe: Probe, datestr: string)
    requires ZeroHourCount(conn.granularity)
    ensures ValidateDatetime(conn, cfg, probe, datestr).Err?
  {
  }

  /** A multi-day granularity is refused before any probe: the answer does
      not depend on the provider. */
  lemma MultiDayRefusedWithoutProbe(conn: Connection, cfg: Config, probe1: Probe, probe2: Probe, datestr: string)
    requires ParseIso(datestr).Ok? && MultiDayPattern(conn.granularity)
    ensures ValidateDatetime(conn, cfg, probe1, datestr) == ValidateDatetime(conn, cfg, probe2, datestr)
            == Err(UnsupportedGranularity(conn.granularity))
  {
  }

  /** With a positive period, validation never moves an instant backwards. */
  lemma ValidateNeverEarlier(conn: Connection, cfg: Config, probe: Probe, datestr: string)
    requires ValidateDatetime(conn, cfg, probe, datestr).Ok?
    requires Delta(conn.granularity).Ok? && Delta(conn.granularity).value > 0
    ensures ValidateDatetime(conn, cfg, probe, datestr).value >= ToSeconds(ParseIso(datestr).value)
  {
  }

  // ---------------------------------------------------------------------
  // Against a provider that answers truthfully

  /** Some candle time lies in `[lo, hi)`. */
  ghost predicate HasCandleIn(times: seq<int>, lo: int, hi: int) {
    exists i :: 0 <= i < |times| && lo <= times[i] < hi
  }

  /** The provider answers 204 exactly for the windows holding no candle. */
  ghost predicate Honest(probe: Probe, times: seq<int>) {
    forall lo, hi :: probe(lo, hi) == NoContent <==> !HasCandleIn(times, lo, hi)
  }

  /** Although every roll probe starts at the original instant, against a
      truthful provider the roll lands on the first period that holds a candle:
      its period has one, and nothing lies between the original instant and
      it. */
  lemma {:induction false} RollLandsOnFirstTradedPeriod(probe: Probe, times: seq<int>, t: int, p: int, k: int)
    requires Honest(probe, times)
    requires StepClosed(probe, t, p, 0)
    requires FirstOpenStep(probe, t, p, k)
    ensures HasCandleIn(times, t + k * p, t + (k + 1) * p)
    ensures !HasCandleIn(times, t, t + k * p)
  {
    assert StepClosed(probe, t, p, k - 1);
    assert (k - 1 + 1) * p == k * p;
    assert !HasCandleIn(times, t, t + k * p);
    assert HasCandleIn(times, t, t + (k + 1) * p);
    var i :| 0 <= i < |times| && t <= times[i] < t + (k + 1) * p;
    assert times[i] < t + k * p ==> HasCandleIn(times, t, t + k * p);
  }

  /** Against a truthful provider, a validated instant begins the first
      period, counted from the requested instant, that holds a candle. The
      requested instant must not precede the start of history when the
      instrument has one; an instrument without one validates only on an
      open first period, which reads no history. */
  lemma ValidatedInstantStartsTradedPeriod(conn: Connection, cfg: Config, probe: Probe, times: seq<int>, datestr: string)
    requires Honest(probe, times)
    requires ValidateDatetime(conn, cfg, probe, datestr).Ok?
    requires HistoricalStart(conn, cfg).Ok? ==> HistoricalStart(conn, cfg).value <= ToSeconds(ParseIso(datestr).value)
    ensures var r := ValidateDatetime(conn, cfg, probe, datestr).value;
            var t := ToSeconds(ParseIso(datestr).value);
            var p := Delta(conn.granularity).value;
            HasCandleIn(times, r, r + p) && !HasCandleIn(times, t, r)
  {
    var r := ValidateDatetime(conn, cfg, probe, datestr).value;
    var t := ToSeconds(ParseIso(datestr).value);
    var p := Delta(conn.granularity).value;
    if probe(t, t + p) == NoContent {
      var k :| 1 <= k <= cfg.rollBudget && FirstOpenStep(probe, t, p, k) && r == t + k * p;
      assert StepClosed(probe, t, p, 0);
      RollLandsOnFirstTradedPeriod(probe, times, t, p, k);
      assert r + p == t + (k + 1) * p;
    }
  }

  // ---------------------------------------------------------------------
  // Query parameters

  /** The parameter assembly of `query`: the start is always validated; an
      end is used only when no count is given, and is then validated and
      widened by one minute; a count wins over an end. */
  function Query(conn: Connection, cfg: Config, probe: Probe, start: string,
                 end: Option<string>, count: Option<int>): (r: Result<QueryParams>)
    ensures ValidateDatetime(conn, cfg, probe, start).Err? ==>
      r == Err(ValidateDatetime(conn, cfg, probe, start).error)
    ensures r.Ok? ==> ValidateDatetime(conn, cfg, probe, start) == Ok(r.value.start)
    ensures r.Ok? ==> r.value.instrument == conn.instrument && r.value.granularity == conn.granularity
    ensures count.Some? ==>
      (r.Ok? <==> ValidateDatetime(conn, cfg, probe, start).Ok?)
      && (r.Ok? ==> r.value.bound == Count(count.value))
    ensures end.Some? && count.None? && r.Ok? ==>
      && ValidateDatetime(conn, cfg, probe, end.value).Ok?
      && r.value.bound == Until(ValidateDatetime(conn, cfg, probe, end.value).value + OneMinute)
    ensures end.Some? && count.None? && ValidateDatetime(conn, cfg, probe, start).Ok? ==>
      var e := ValidateDatetime(conn, cfg, probe, end.value);
      r == if e.Ok? then
             Ok(QueryParams(conn.instrument, conn.granularity, ValidateDatetime(conn, cfg, probe, start).value,
                            Until(e.value + OneMinute)))
           else Err(e.error)
    ensures end.None? && count.None? ==> r.Err?
    ensures end.None? && count.None? && ValidateDatetime(conn, cfg, probe, start).Ok? ==> r == Err(MissingBound)
  {
    var s :- ValidateDatetime(conn, cfg, probe, start);
    if end.Some? && count.None? then
      var e :- ValidateDatetime(conn, cfg, probe, end.value);
      Ok(QueryParams(conn.instrument, conn.granularity, s, Until(e + OneMinute)))
    else if count.Some? then
      Ok(QueryParams(conn.instrument, conn.granularity, s, Count(count.value)))
    else
      Err(MissingBound)
  }

  /** With a count, the end is not even looked at: a malformed end does no
      harm. */
  lemma CountIgnoresEnd(conn: Connection, cfg: Config, probe: Probe, start: string,
                        end1: Option<string>, end2: Option<string>, n: int)
    ensures Query(conn, cfg, probe, start, end1, Some(n)) == Query(conn, cfg, probe, start, end2, Some(n))
  {
  }

  /** `query` with a local snapshot: the assembled parameters slice it. */
  method QuerySnapshot(conn: Connection, cfg: Config, probe: Probe, start: string,
                       end: Option<string>, count: Option<int>, snap: Snapshot) returns (r: Result<Snapshot>)
    ensures Query(conn, cfg, probe, start, end, count).Err? ==>
      r == Err(Query(conn, cfg, probe, start, end, count).error)
    ensures Query(conn, cfg, probe, start, end, count).Ok? ==>
      var q := Query(conn, cfg, probe, start, end, count).value;
      r.Ok? && r.value.header == snap.header && r.value.candles == Slice(snap.candles, q.start, q.bound)
  {
    var q := Query(conn, cfg, probe, start, end, count);
    if q.Err? {
      return Err(q.error);
    }
    var sliced := ParseSerData(snap, q.value);
    return Ok(sliced);
  }

  // ---------------------------------------------------------------------
  // End-of-range tolerance

  /** `__validate_end`: the last candle must be at the requested end, or on
      the same calendar day and at most an hour of time-of-day away. */
  function ValidateEnd(endAt: int, candles: seq<Candle>): (r: Outcome)
    ensures r == Pass <==>
      && |candles| > 0
      && candles[|candles| - 1].time / SecondsPerDay == endAt / SecondsPerDay
      && Abs(candles[|candles| - 1].time - endAt) <= SecondsPerHour
    ensures r.Fail? ==> r.error == (if |candles| == 0 then NoCandles else EndMismatch)
  {
    if |candles| == 0 then Fail(NoCandles)
    else
      var fetched := candles[|candles| - 1].time;
      if endAt != fetched then
        var difference := fetched % SecondsPerDay - endAt % SecondsPerDay;
        if fetched / SecondsPerDay == endAt / SecondsPerDay && Abs(difference) <= SecondsPerHour then Pass
        else Fail(EndMismatch)
      else Pass
  }

  /** The tolerance in calendar terms: for date-times, the check passes
      exactly when they are equal, or share a date and their times of day
      differ by at most an hour. */
  lemma EndToleranceOnDates(requested: DateTime, fetched: DateTime, prices: map<string, string>)
    requires Valid(requested) && Valid(fetched)
    ensures ValidateEnd(ToSeconds(requested), [Candle(ToSeconds(fetched), prices)]) == Pass
        <==> requested == fetched
             || (SameDate(requested, fetched) && Abs(TimeOfDay(fetched) - TimeOfDay(requested)) <= SecondsPerHour)
  {
    SameDateIffSameDay(requested, fetched);
    DateAndTimeOfSeconds(requested);
    DateAndTimeOfSeconds(fetched);
  }
}

=== FILE: datetimes.dfy ===
/** The slice of Python's `datetime` that the connection relies on:
    strict `strptime` with the formats `%Y-%m-%dT%H:%M:%S` and
    `%Y-%m-%d %H:%M:%S`, `isoformat()`, comparison, `.date()` and `.time()`.

    A date-time is turned into whole seconds since 0001-01-01T00:00:00 (the
    first instant Python's `datetime` can hold); the lemmas at the end show that
    this numbering preserves and reflects the order of date-times and that
    `.date()` and `.time()` become division and remainder by one day, so the
    rest of the model can work on integers. */
module DateTimes {
  import opened Outcomes
  import opened Decimal

  const SecondsPerDay: int := 86400
  const SecondsPerHour: int := 3600
  const SecondsPerMinute: int := 60

  datatype DateTime = DateTime(year: int, month: int, day: int, hour: int, minute: int, second: int)

  predicate IsLeapYear(y: int) {
    y % 4 == 0 && (y % 100 != 0 || y % 400 == 0)
  }

  function DaysInYear(y: int): int {
    if IsLeapYear(y) then 366 else 365
  }

  function DaysInMonth(y: int, m: int): int
    requires 1 <= m <= 12
  {
    if m == 2 then (if IsLeapYear(y) then 29 else 28)
    else if m == 4 || m == 6 || m == 9 || m == 11 then 30
    else 31
  }

  /** What `datetime(...)` accepts: years 1..9999, real calendar days. */
  predicate Valid(dt: DateTime) {
    && 1 <= dt.year <= 9999
    && 1 <= dt.month <= 12
    && 1 <= dt.day <= DaysInMonth(dt.year, dt.month)
    && 0 <= dt.hour < 24
    && 0 <= dt.minute < 60
    && 0 <= dt.second < 60
  }

  /** Days from 0001-01-01 to January 1st of year `y` (proleptic Gregorian). */
  function DaysBeforeYear(y: int): int {
    var n := y - 1;
    365 * n + n / 4 - n / 100 + n / 400
  }

  function DaysBeforeMonth(y: int, m: int): int
    requires 1 <= m <= 12
  {
    var common :=
      if m == 1 then 0 else if m == 2 then 31 else if m == 3 then 59
      else if m == 4 then 90 else if m == 5 then 120 else if m == 6 then 151
      else if m == 7 then 181 else if m == 8 then 212 else if m == 9 then 243
      else if m == 10 then 273 else if m == 11 then 304 else 334;
    if m > 2 && IsLeapYear(y) then common + 1 else common
  }

  /** Days since 0001-01-01 of the date part (`toordinal() - 1`). */
  function DayNumber(dt: DateTime): int
    requires 1 <= dt.month <= 12
  {
    DaysBeforeYear(dt.year) + DaysBeforeMonth(dt.year, dt.month) + dt.day - 1
  }

  /** Seconds since midnight of the time part. */
  function TimeOfDay(dt: DateTime): int {
    dt.hour * SecondsPerHour + dt.minute * SecondsPerMinute + dt.second
  }

  /** The instant `dt` denotes, in seconds since 0001-01-01T00:00:00. */
  function ToSeconds(dt: DateTime): int
    requires Valid(dt)
  {
    DayNumber(dt) * SecondsPerDay + TimeOfDay(dt)
  }

  /** Python's comparison of two `datetime` values: field by field. */
  predicate Precedes(a: DateTime, b: DateTime) {
    if a.year != b.year then a.year < b.year
    else if a.month != b.month then a.month < b.month
    else if a.day != b.day then a.day < b.day
    else if a.hour != b.hour then a.hour < b.hour
    else if a.minute != b.minute then a.minute < b.minute
    else a.second < b.second
  }

  predicate SameDate(a: DateTime, b: DateTime) {
    a.year == b.year && a.month == b.month && a.day == b.day
  }

  // ---------------------------------------------------------------------
  // Parsing and formatting

  /** The fixed layout `YYYY-MM-DD<sep>HH:MM:SS`, digits where digits go. */
  predicate WellShaped(s: string, sep: char) {
    && |s| == 19
    && s[4] == '-' && s[7] == '-' && s[10] == sep && s[13] == ':' && s[16] == ':'
    && AllDigits(s[0..4]) && AllDigits(s[5..7]) && AllDigits(s[8..10])
    && AllDigits(s[11..13]) && AllDigits(s[14..16]) && AllDigits(s[17..19])
  }

  function Fields(s: string, sep: char): DateTime
    requires WellShaped(s, sep)
  {
    DateTime(Value(s[0..4]), Value(s[5..7]), Value(s[8..10]),
             Value(s[11..13]), Value(s[14..16]), Value(s[17..19]))
  }

  /** `datetime.strptime(s, "%Y-%m-%d" + sep + "%H:%M:%S")`. */
  function ParseWith(s: string, sep: char): (r: Result<DateTime>)
    ensures r.Ok? ==> Valid(r.value)
    ensures r.Err? ==> r.error == BadDateFormat(s)
  {
    if WellShaped(s, sep) && Valid(Fields(s, sep)) then Ok(Fields(s, sep))
    else Err(BadDateFormat(s))
  }

  /** The wire format of the connection: `%Y-%m-%dT%H:%M:%S`. */
  function ParseIso(s: string): Result<DateTime> {
    ParseWith(s, 'T')
  }

  /** `dt.isoformat()` (sep `T`) or `str(dt)` (sep space), for whole seconds. */
  function FormatWith(dt: DateTime, sep: char): (s: string)
    requires Valid(dt)
  {
    Layout(Padded(dt.year, 4), Padded(dt.month, 2), Padded(dt.day, 2), sep,
           Padded(dt.hour, 2), Padded(dt.minute, 2), Padded(dt.second, 2))
  }

  /** The six fields joined by the punctuation of the layout. */
  function Layout(y: string, mo: string, d: string, sep: char, h: string, mi: string, se: string): string {
    y + "-" + mo + "-" + d + [sep] + h + ":" + mi + ":" + se
  }

  /** Fields of the right widths land at the positions `WellShaped` reads. */
  lemma LayoutFields(y: string, mo: string, d: string, sep: char, h: string, mi: string, se: string)
    requires |y| == 4 && |mo| == 2 && |d| == 2 && |h| == 2 && |mi| == 2 && |se| == 2
    ensures var s := Layout(y, mo, d, sep, h, mi, se);
      && |s| == 19 && s[0..4] == y && s[5..7] == mo && s[8..10] == d
      && s[11..13] == h && s[14..16] == mi && s[17..19] == se
      && s[4] == '-' && s[7] == '-' && s[10] == sep && s[13] == ':' && s[16] == ':'
  {
  }

  /** A well-shaped string is the layout of its own fields. */
  lemma LayoutOfShaped(s: string, sep: char)
    requires WellShaped(s, sep)
    ensures s == Layout(s[0..4], s[5..7], s[8..10], sep, s[11..13], s[14..16], s[17..19])
  {
    var t := Layout(s[0..4], s[5..7], s[8..10], sep, s[11..13], s[14..16], s[17..19]);
    LayoutFields(s[0..4], s[5..7], s[8..10], sep, s[11..13], s[14..16], s[17..19]);
    assert forall i :: 0 <= i < 19 ==> s[i] == t[i] by {
      forall i | 0 <= i < 19 ensures s[i] == t[i] {
        if i < 4 { assert s[i] == s[0..4][i]; }
        else if 5 <= i < 7 { assert s[i] == s[5..7][i - 5]; }
        else if 8 <= i < 10 { assert s[i] == s[8..10][i - 8]; }
        else if 11 <= i < 13 { assert s[i] == s[11..13][i - 11]; }
        else if 14 <= i < 16 { assert s[i] == s[14..16][i - 14]; }
        else if 17 <= i { assert s[i] == s[17..19][i - 17]; }
      }
    }
  }

  /** `try_parsing_date`: the ISO layout first, then the space-separated one. */
  function TryParsingDate(text: string): (r: Result<DateTime>)
    ensures r.Ok? <==> ParseWith(text, 'T').Ok? || ParseWith(text, ' ').Ok?
    ensures r.Ok? ==> Valid(r.value)
    ensures r.Err? ==> r.error == NoValidDateFormat(text)
  {
    match ParseWith(text, 'T')
    case Ok(dt) => Ok(dt)
    case Err(_) =>
      match ParseWith(text, ' ')
      case Ok(dt) => Ok(dt)
      case Err(_) => Err(NoValidDateFormat(text))
  }

  /** Formatting then parsing gives back the date-time. */
  lemma ParseFormat(dt: DateTime, sep: char)
    requires Valid(dt)
    requires !IsDigit(sep)
    ensures ParseWith(FormatWith(dt, sep), sep) == Ok(dt)
  {
    var s := FormatWith(dt, sep);
    LayoutFields(Padded(dt.year, 4), Padded(dt.month, 2), Padded(dt.day, 2), sep,
                 Padded(dt.hour, 2), Padded(dt.minute, 2), Padded(dt.second, 2));
    ValueOfPadded(dt.year, 4);
    ValueOfPadded(dt.month, 2);
    ValueOfPadded(dt.day, 2);
    ValueOfPadded(dt.hour, 2);
    ValueOfPadded(dt.minute, 2);
    ValueOfPadded(dt.second, 2);
    assert WellShaped(s, sep);
    assert Fields(s, sep) == dt;
  }

  /** Parsing succeeds only on the canonical spelling: formatting the result
      gives back the input text. */
  lemma FormatParse(s: string, sep: char)
    requires ParseWith(s, sep).Ok?
    ensures FormatWith(ParseWith(s, sep).value, sep) == s
  {
    PaddedOfValue(s[0..4]);
    PaddedOfValue(s[5..7]);
    PaddedOfValue(s[8..10]);
    PaddedOfValue(s[11..13]);
    PaddedOfValue(s[14..16]);
    PaddedOfValue(s[17..19]);
    LayoutOfShaped(s, sep);
  }

  /** `try_parsing_date` accepts both layouts of every valid date-time. */
  lemma TryParsingDateAcceptsBoth(dt: DateTime)
    requires Valid(dt)
    ensures TryParsingDate(FormatWith(dt, 'T')) == Ok(dt)
    ensures TryParsingDate(FormatWith(dt, ' ')) == Ok(dt)
  {
    ParseFormat(dt, 'T');
    ParseFormat(dt, ' ');
    LayoutFields(Padded(dt.year, 4), Padded(dt.month, 2), Padded(dt.day, 2), ' ',
                 Padded(dt.hour, 2), Padded(dt.minute, 2), Padded(dt.second, 2));
  }

  // ---------------------------------------------------------------------
  // Seconds since 0001-01-01 preserve the calendar order

  /** Moving `n` up by one raises `n / k` exactly when `k` divides `n + 1`,
      for the three divisors of the leap-year rule. */
  lemma QuotientStep(n: int)
    ensures (n + 1) / 4 - n / 4 == (if (n + 1) % 4 == 0 then 1 else 0)
    ensures (n + 1) / 100 - n / 100 == (if (n + 1) % 100 == 0 then 1 else 0)
    ensures (n + 1) / 400 - n / 400 == (if (n + 1) % 400 == 0 then 1 else 0)
  {
  }

  /** Multiples of 400 are multiples of 100. */
  lemma CenturyOfQuadCentury(y: int)
    requires y % 400 == 0
    ensures y % 100 == 0
  {
  }

  /** Multiples of 100 are multiples of 4. */
  lemma QuadOfCentury(y: int)
    requires y % 100 == 0
    ensures y % 4 == 0
  {
  }

  lemma DaysBeforeYearStep(y: int)
    ensures DaysBeforeYear(y + 1) == DaysBeforeYear(y) + DaysInYear(y)
  {
    QuotientStep(y - 1);
    if y % 400 == 0 {
      CenturyOfQuadCentury(y);
    }
    if y % 100 == 0 {
      QuadOfCentury(y);
    }
    var leaps := (if y % 4 == 0 then 1 else 0) - (if y % 100 == 0 then 1 else 0)
                 + (if y % 400 == 0 then 1 else 0);
    assert DaysBeforeYear(y + 1) == DaysBeforeYear(y) + 365 + leaps;
    assert DaysInYear(y) == 365 + leaps;
  }

  lemma {:induction false} DaysBeforeYearGrows(y1: int, y2: int)
    requires y1 < y2
    ensures DaysBeforeYear(y1) + DaysInYear(y1) <= DaysBeforeYear(y2)
    decreases y2 - y1
  {
    DaysBeforeYearStep(y1);
    if y1 + 1 < y2 {
      DaysBeforeYearGrows(y1 + 1, y2);
    }
  }

  lemma MonthsFitInYear(dt: DateTime)
    requires Valid(dt)
    ensures 0 <= DaysBeforeMonth(dt.year, dt.month) + dt.day - 1 < DaysInYear(dt.year)
  {
  }

  lemma DaysBeforeMonthGrows(y: int, m1: int, m2: int)
    requires 1 <= m1 < m2 <= 12
    ensures DaysBeforeMonth(y, m1) + DaysInMonth(y, m1) <= DaysBeforeMonth(y, m2)
  {
  }

  /** An earlier calendar date has a smaller day number. */
  lemma DayNumberGrows(a: DateTime, b: DateTime)
    requires Valid(a) && Valid(b)
    requires a.year < b.year || (a.year == b.year && a.month < b.month)
             || (a.year == b.year && a.month == b.month && a.day < b.day)
    ensures DayNumber(a) < DayNumber(b)
  {
    MonthsFitInYear(a);
    MonthsFitInYear(b);
    if a.year < b.year {
      DaysBeforeYearGrows(a.year, b.year);
    } else if a.month < b.month {
      DaysBeforeMonthGrows(a.year, a.month, b.month);
    }
  }

  lemma TimeOfDayBounds(dt: DateTime)
    requires Valid(dt)
    ensures 0 <= TimeOfDay(dt) < SecondsPerDay
  {
  }

  /** Python's datetime comparison agrees with comparing seconds. */
  lemma {:induction false} PrecedesIffEarlier(a: DateTime, b: DateTime)
    requires Valid(a) && Valid(b)
    ensures Precedes(a, b) <==> ToSeconds(a) < ToSeconds(b)
  {
    TimeOfDayBounds(a);
    TimeOfDayBounds(b);
    if SameDate(a, b) {
      assert DayNumber(a) == DayNumber(b);
    } else if Precedes(a, b) {
      DayNumberGrows(a, b);
    } else {
      DayNumberGrows(b, a);
    }
  }

  /** Distinct date-times are distinct instants. */
  lemma ToSecondsInjective(a: DateTime, b: DateTime)
    requires Valid(a) && Valid(b)
    requires ToSeconds(a) == ToSeconds(b)
    ensures a == b
  {
    PrecedesIffEarlier(a, b);
    PrecedesIffEarlier(b, a);
  }

  /** `.date()` is the quotient and `.time()` the remainder by one day. */
  lemma DateAndTimeOfSeconds(dt: DateTime)
    requires Valid(dt)
    ensures ToSeconds(dt) / SecondsPerDay == DayNumber(dt)
    ensures ToSeconds(dt) % SecondsPerDay == TimeOfDay(dt)
  {
    TimeOfDayBounds(dt);
  }

  /** Two date-times share `.date()` exactly when their instants fall on
      the same day number. */
  lemma SameDateIffSameDay(a: DateTime, b: DateTime)
    requires Valid(a) && Valid(b)
    ensures SameDate(a, b) <==> ToSeconds(a) / SecondsPerDay == ToSeconds(b) / SecondsPerDay
  {
    DateAndTimeOfSeconds(a);
    DateAndTimeOfSeconds(b);
    if !SameDate(a, b) {
      if Precedes(a, b) {
        DayNumberGrows(a, b);
      } else {
        DayNumberGrows(b, a);
      }
    }
  }
}

=== FILE: decimal.dfy ===
/** ASCII decimal digit strings: reading them as numbers, and writing numbers
    back, either zero-padded to a fixed width (the `%Y`, `%m`, ... fields of a
    timestamp) or in shortest form (Python's `str(n)`). */
module Decimal {

  predicate IsDigit(c: char) {
    '0' <= c <= '9'
  }

  predicate AllDigits(s: string) {
    forall i :: 0 <= i < |s| ==> IsDigit(s[i])
  }

  function DigitValue(c: char): nat
    requires IsDigit(c)
  {
    (c as int) - ('0' as int)
  }

  function DigitChar(d: nat): (c: char)
    requires d < 10
    ensures IsDigit(c) && DigitValue(c) == d
  {
    (('0' as int) + d) as char
  }

  /** The number a digit string denotes, most significant digit first. */
  function Value(s: string): nat
    requires AllDigits(s)
    decreases |s|
  {
    if |s| == 0 then 0 else Value(s[..|s| - 1]) * 10 + DigitValue(s[|s| - 1])
  }

  function Pow10(n: nat): (r: nat)
    ensures r >= 1
  {
    if n == 0 then 1 else 10 * Pow10(n - 1)
  }

  /** The last `width` decimal digits of `n`, zero-padded. */
  function Padded(n: nat, width: nat): (s: string)
    ensures |s| == width && AllDigits(s)
  {
    if width == 0 then [] else Padded(n / 10, width - 1) + [DigitChar(n % 10)]
  }

  /** The shortest decimal spelling of `n`, as Python's `str(n)`. */
  function Unpadded(n: nat): (s: string)
    ensures |s| >= 1 && AllDigits(s)
  {
    if n < 10 then [DigitChar(n)] else Unpadded(n / 10) + [DigitChar(n % 10)]
  }

  /** A number that fits in `width` digits is read back from its padded form. */
  lemma {:induction false} ValueOfPadded(n: nat, width: nat)
    requires n < Pow10(width)
    ensures Value(Padded(n, width)) == n
  {
    if width > 0 {
      var s := Padded(n, width);
      assert s[..|s| - 1] == Padded(n / 10, width - 1);
      ValueOfPadded(n / 10, width - 1);
    }
  }

  /** A digit string is exactly the padded spelling of its own value. */
  lemma {:induction false} PaddedOfValue(s: string)
    requires AllDigits(s)
    ensures Padded(Value(s), |s|) == s
  {
    if |s| > 0 {
      var init := s[..|s| - 1];
      assert AllDigits(init);
      PaddedOfValue(init);
      assert Value(s) / 10 == Value(init);
      assert Value(s) % 10 == DigitValue(s[|s| - 1]);
      assert DigitChar(DigitValue(s[|s| - 1])) == s[|s| - 1];
      assert s == init + [s[|s| - 1]];
    }
  }

  /** `int(str(n)) == n` for natural numbers. */
  lemma {:induction false} ValueOfUnpadded(n: nat)
    ensures Value(Unpadded(n)) == n
  {
    if n >= 10 {
      var s := Unpadded(n);
      assert s[..|s| - 1] == Unpadded(n / 10);
      ValueOfUnpadded(n / 10);
    }
  }
}

=== FILE: granularity.dfy ===
/** Bar granularities: the names the provider uses ("D", "H<n>", "M<n>") and
    the period, in seconds, by which the connection advances a timestamp.
    `Delta` is the period computation shared by `validate_datetime` and
    `__roll_datetime` in `oanda/connect.py`. */
module Granularities {
  import opened Outcomes
  import opened Decimal
  import opened DateTimes

  /** A bar period. The counts are not constrained: the source hands whatever
      `int()` returns to `timedelta`, zero and negative values included. */
  datatype Granularity = Daily | Hours(n: int) | Minutes(n: int)

  function PeriodSeconds(g: Granularity): int {
    match g
    case Daily => SecondsPerDay
    case Hours(n) => n * SecondsPerHour
    case Minutes(n) => n * SecondsPerMinute
  }

  /** `str(n)` for any integer. */
  function IntToString(n: int): (s: string)
    ensures |s| >= 1
  {
    if n < 0 then "-" + Unpadded(-n) else Unpadded(n)
  }

  /** The provider's name for a granularity. */
  function Name(g: Granularity): string {
    match g
    case Daily => "D"
    case Hours(n) => "H" + IntToString(n)
    case Minutes(n) => "M" + IntToString(n)
  }

  /** Python's `int(text)` restricted to ASCII: an optional sign, then at least
      one decimal digit. */
  function ParseInt(text: string): (r: Result<int>)
    ensures r.Err? ==> r.error == BadPeriodCount(text)
    ensures r.Ok? ==> |text| > 0 && (IsDigit(text[0]) || text[0] == '+' || text[0] == '-')
    ensures r.Ok? <==>
      var d := if |text| > 0 && (text[0] == '+' || text[0] == '-') then text[1..] else text;
      |d| > 0 && AllDigits(d)
  {
    var signed := |text| > 0 && (text[0] == '+' || text[0] == '-');
    var digits := if signed then text[1..] else text;
    if |digits| > 0 && AllDigits(digits) then
      var magnitude: int := Value(digits);
      Ok(if signed && text[0] == '-' then -magnitude else magnitude)
    else
      Err(BadPeriodCount(text))
  }

  /** `s.replace(c, '')`. */
  function RemoveAll(s: string, c: char): (r: string)
    ensures c !in r
    ensures |r| <= |s|
    ensures forall x :: x in r ==> x in s
    ensures forall x :: x != c ==> multiset(r)[x] == multiset(s)[x]
  {
    if |s| == 0 then []
    else
      assert s == [s[0]] + s[1..];
      (if s[0] == c then [] else [s[0]]) + RemoveAll(s[1..], c)
  }

  /** The pattern `\dD` matched at the start of the name: a digit then `D`. */
  predicate MultiDayPattern(g: string) {
    |g| >= 2 && IsDigit(g[0]) && g[1] == 'D'
  }

  /** The D/H/M dispatch: exactly "D", or a name starting with H (resp. M) whose
      remaining text, once every H (resp. M) is removed, is an integer. */
  function ParseGranularity(g: string): (r: Result<Granularity>)
    ensures r.Ok? ==> g == "D" || (|g| > 0 && g[0] == Name(r.value)[0])
    ensures r.Ok? && r.value.Daily? <==> g == "D"
    ensures !(g == "D" || (|g| > 0 && (g[0] == 'H' || g[0] == 'M'))) ==> r == Err(UnknownGranularity(g))
    ensures |g| > 0 && (g[0] == 'H' || g[0] == 'M') ==>
      && (r.Err? <==> ParseInt(RemoveAll(g, g[0])).Err?)
      && (r.Err? ==> r.error == ParseInt(RemoveAll(g, g[0])).error)
  {
    if g == "D" then Ok(Daily)
    else if |g| > 0 && g[0] == 'H' then
      var n :- ParseInt(RemoveAll(g, 'H'));
      Ok(Hours(n))
    else if |g| > 0 && g[0] == 'M' then
      var n :- ParseInt(RemoveAll(g, 'M'));
      Ok(Minutes(n))
    else
      Err(UnknownGranularity(g))
  }

  /** An H name whose count reads as zero ("H0", "H00", "H-0", ...): the step
      of `range(0, 24, nhours)` is then zero. */
  predicate ZeroHourCount(g: string) {
    ParseGranularity(g) == Ok(Hours(0))
  }

  /** The period length in seconds named by `g`. */
  function Delta(g: string): Result<int> {
    var gr :- ParseGranularity(g);
    Ok(PeriodSeconds(gr))
  }

  /** `re.match` anchors at the start only: the `\dD` test holds exactly when
      the name begins with a digit followed by `D`, whatever comes after. */
  lemma MultiDayPrefix(g: string)
    ensures MultiDayPattern(g) <==> exists d :: IsDigit(d) && [d, 'D'] <= g
  {
    if MultiDayPattern(g) {
      assert IsDigit(g[0]) && [g[0], 'D'] <= g;
    }
  }

  /** An accepted H or M name reads as the count `int()` finds once every
      copy of its letter is removed: "H1H3" is thirteen hours. */
  lemma ParseGranularityReadsCount(g: string)
    requires ParseGranularity(g).Ok? && g != "D"
    ensures |g| > 0
    ensures var n := ParseInt(RemoveAll(g, g[0])).value;
            ParseGranularity(g).value == if g[0] == 'H' then Hours(n) else Minutes(n)
  {
  }

  /** The period named by `g`: a day for "D"; for an H or M name, the count
      `int()` reads once every copy of the letter is removed, times an hour
      or a minute, or that read's error; an unknown name otherwise. */
  lemma DeltaOfAnyName(g: string)
    ensures g == "D" ==> Delta(g) == Ok(86400)
    ensures |g| > 0 && (g[0] == 'H' || g[0] == 'M') ==>
      var count := ParseInt(RemoveAll(g, g[0]));
      && (Delta(g).Ok? <==> count.Ok?)
      && (Delta(g).Ok? ==> Delta(g).value == count.value * (if g[0] == 'H' then 3600 else 60))
      && (Delta(g).Err? ==> Delta(g).error == count.error)
    ensures !(g == "D" || (|g| > 0 && (g[0] == 'H' || g[0] == 'M'))) ==>
      Delta(g) == Err(UnknownGranularity(g))
  {
  }

  /** The hour table's step is zero exactly for an H name whose count reads
      as zero, and such a name advances by nothing. */
  lemma ZeroHourCountIffZeroStep(g: string)
    ensures ZeroHourCount(g) <==> |g| > 0 && g[0] == 'H' && ParseInt(RemoveAll(g, g[0])) == Ok(0)
    ensures ZeroHourCount(g) ==> Delta(g) == Ok(0)
  {
  }

  lemma RemoveAllAbsent(s: string, c: char)
    requires c !in s
    ensures RemoveAll(s, c) == s
  {
  }

  /** Removal works piecewise, so the surviving characters keep their order. */
  lemma {:induction false} RemoveAllConcat(a: string, b: string, c: char)
    ensures RemoveAll(a + b, c) == RemoveAll(a, c) + RemoveAll(b, c)
    decreases |a|
  {
    if |a| == 0 {
      assert a + b == b;
    } else {
      var head := if a[0] == c then [] else [a[0]];
      assert (a + b)[0] == a[0];
      assert (a + b)[1..] == a[1..] + b;
      assert RemoveAll(a + b, c) == head + RemoveAll(a[1..] + b, c);
      assert RemoveAll(a, c) == head + RemoveAll(a[1..], c);
      RemoveAllConcat(a[1..], b, c);
      assert head + (RemoveAll(a[1..], c) + RemoveAll(b, c))
          == (head + RemoveAll(a[1..], c)) + RemoveAll(b, c);
    }
  }

  /** `int()` on bare digits is their value. */
  lemma ParseIntOfDigits(digits: string)
    requires |digits| > 0 && AllDigits(digits)
    ensures ParseInt(digits) == Ok(Value(digits) as int)
  {
    assert IsDigit(digits[0]);
  }

  /** `int()` on a plus sign followed by digits. */
  lemma ParseIntOfPlus(digits: string)
    requires |digits| > 0 && AllDigits(digits)
    ensures ParseInt("+" + digits) == Ok(Value(digits) as int)
  {
    assert ("+" + digits)[1..] == digits;
  }

  /** `int()` on a minus sign followed by digits. */
  lemma ParseIntOfMinus(digits: string)
    requires |digits| > 0 && AllDigits(digits)
    ensures ParseInt("-" + digits) == Ok(-(Value(digits) as int))
  {
    assert ("-" + digits)[1..] == digits;
  }

  /** `int()` on digits with an optional sign is their signed value. */
  lemma ParseIntOfSignedDigits(sign: string, digits: string)
    requires sign == "" || sign == "+" || sign == "-"
    requires |digits| > 0 && AllDigits(digits)
    ensures ParseInt(sign + digits) == Ok(if sign == "-" then -(Value(digits) as int) else Value(digits) as int)
  {
    if sign == "" {
      assert sign + digits == digits;
      ParseIntOfDigits(digits);
    } else if sign == "+" {
      ParseIntOfPlus(digits);
    } else {
      ParseIntOfMinus(digits);
    }
  }

  /** `int()` on signed digits worth `n` is `n` with that sign. */
  lemma ParseIntOfDigitsWorth(sign: string, digits: string, n: nat)
    requires sign == "" || sign == "+" || sign == "-"
    requires |digits| > 0 && AllDigits(digits) && Value(digits) == n
    ensures ParseInt(sign + digits) == Ok(if sign == "-" then -(n as int) else n as int)
  {
    ParseIntOfSignedDigits(sign, digits);
  }

  /** `int()` reads an optionally signed digit string of any width, leading
      zeros included. */
  lemma ParseIntOfPadded(sign: string, n: nat, w: nat)
    requires sign == "" || sign == "+" || sign == "-"
    requires 1 <= w && n < Pow10(w)
    ensures ParseInt(sign + Padded(n, w)) == Ok(if sign == "-" then -(n as int) else n as int)
  {
    ValueOfPadded(n, w);
    ParseIntOfDigitsWorth(sign, Padded(n, w), n);
  }

  /** `int(str(n)) == n`. */
  lemma ParseIntOfIntToString(n: int)
    ensures ParseInt(IntToString(n)) == Ok(n)
  {
    var s := IntToString(n);
    if n < 0 {
      ValueOfUnpadded(-n);
      assert s[1..] == Unpadded(-n);
    } else {
      ValueOfUnpadded(n);
      assert IsDigit(s[0]);
    }
  }

  /** Removing the unit letter from "<unit><n>" leaves `int`'s input `str(n)`. */
  lemma ReadCount(unit: char, n: int)
    requires unit == 'H' || unit == 'M'
    ensures RemoveAll([unit] + IntToString(n), unit) == IntToString(n)
    ensures ParseInt(IntToString(n)) == Ok(n)
  {
    var digits := IntToString(n);
    assert unit !in digits by {
      if n < 0 {
        assert digits == ['-'] + Unpadded(-n);
        assert forall i :: 1 <= i < |digits| ==> IsDigit(digits[i]);
      } else {
        assert AllDigits(digits);
      }
    }
    assert ([unit] + digits)[1..] == digits;
    RemoveAllAbsent(digits, unit);
    ParseIntOfIntToString(n);
  }

  /** Every granularity is recovered from its name. */
  lemma ParseName(g: Granularity)
    ensures ParseGranularity(Name(g)) == Ok(g)
  {
    match g
    case Daily =>
    case Hours(n) =>
      ReadCount('H', n);
      assert Name(g) == ['H'] + IntToString(n);
    case Minutes(n) =>
      ReadCount('M', n);
      assert Name(g) == ['M'] + IntToString(n);
  }

  /** "D" is a day, "H<n>" is n hours and "M<n>" is n minutes. */
  lemma DeltaOfName(n: int)
    ensures Delta("D") == Ok(86400)
    ensures Delta("H" + IntToString(n)) == Ok(n * 3600)
    ensures Delta("M" + IntToString(n)) == Ok(n * 60)
  {
    ParseName(Hours(n));
    ParseName(Minutes(n));
  }

  /** A unit letter followed by any text reads that text, with every further
      copy of the letter removed, as the count. */
  lemma DeltaOfUnitName(unit: char, rest: string)
    requires unit == 'H' || unit == 'M'
    requires ParseInt(RemoveAll(rest, unit)).Ok?
    ensures Delta([unit] + rest) == Ok(ParseInt(RemoveAll(rest, unit)).value * (if unit == 'H' then 3600 else 60))
  {
    var g := [unit] + rest;
    assert g[0] == unit && g != "D";
    assert g[1..] == rest;
    assert RemoveAll(g, unit) == RemoveAll(rest, unit);
    var n := ParseInt(RemoveAll(rest, unit)).value;
    if unit == 'H' {
      assert ParseGranularity(g) == Ok(Hours(n));
    } else {
      assert ParseGranularity(g) == Ok(Minutes(n));
    }
  }

  lemma UnitNotInCount(unit: char, sign: string, n: nat, w: nat)
    requires unit == 'H' || unit == 'M'
    requires sign == "" || sign == "+" || sign == "-"
    ensures unit !in sign + Padded(n, w)
  {
    var digits := Padded(n, w);
    assert forall i :: 0 <= i < |digits| ==> IsDigit(digits[i]);
    assert forall x :: x in sign + digits ==> x in sign || x in digits;
  }

  /** Non-canonical counts such as "H05", "H+5" or "M-007" name the period
      their digits spell. */
  lemma DeltaOfPaddedName(unit: char, sign: string, n: nat, w: nat)
    requires unit == 'H' || unit == 'M'
    requires sign == "" || sign == "+" || sign == "-"
    requires 1 <= w && n < Pow10(w)
    ensures var count := if sign == "-" then -(n as int) else n as int;
            Delta([unit] + sign + Padded(n, w))
            == Ok(count * (if unit == 'H' then 3600 else 60))
  {
    var rest := sign + Padded(n, w);
    assert [unit] + sign + Padded(n, w) == [unit] + rest;
    UnitNotInCount(unit, sign, n, w);
    ParseIntOfPadded(sign, n, w);
    DeltaOfCleanName(unit, rest, if sign == "-" then -(n as int) else n as int);
  }

  /** A unit letter followed by text free of that letter reads the text. */
  lemma DeltaOfCleanName(unit: char, rest: string, count: int)
    requires unit == 'H' || unit == 'M'
    requires unit !in rest && ParseInt(rest) == Ok(count)
    ensures Delta([unit] + rest) == Ok(count * (if unit == 'H' then 3600 else 60))
  {
    RemoveAllAbsent(rest, unit);
    DeltaOfUnitName(unit, rest);
  }

  /** A multi-day name such as "2D" names no period at all. */
  lemma MultiDayHasNoPeriod(g: string)
    requires MultiDayPattern(g)
    ensures Delta(g) == Err(UnknownGranularity(g))
  {
  }
}

=== FILE: outcomes.dfy ===
/** Failure-compatible result types and the error taxonomy of the connection
    to the quote provider. Each `Error` constructor stands for one exception
    the Python code raises (or, for `RollBudgetExhausted`, for the point at
    which the model stops an unbounded scan). */
module Outcomes {

  datatype Option<+T> = None | Some(value: T)

  datatype Error =
    | BadDateFormat(text: string)             // strptime rejects the timestamp
    | NoValidDateFormat(text: string)         // neither accepted registry format matches
    | UnsupportedGranularity(name: string)    // "<digit>D": multi-day bars
    | BadPeriodCount(text: string)            // int() rejects the count after H or M
    | UnknownGranularity(name: string)        // no period: `datetime + None`
    | ZeroHourStep(name: string)              // `range(0, 24, 0)` for an H count of zero
    | ClosedMarket(date: string)              // probe said 204 and rolling is off
    | NoHistoricalStart(instrument: string)   // instrument missing from the registry
    | RollBudgetExhausted                     // the forward scan ran out of probes
    | MissingBound                            // neither end nor count supplied
    | NoCandles                               // last candle of an empty list
    | EndMismatch                             // last candle outside the end tolerance

  /** A value or the error that stopped the computation; usable with `:-`. */
  datatype Result<+T> = Ok(value: T) | Err(error: Error) {

    predicate IsFailure() {
      Err?
    }

    function PropagateFailure<U>(): Result<U>
      requires Err?
    {
      Err(error)
    }

    function Extract(): T
      requires Ok?
    {
      value
    }
  }

  /** A check that either passes or fails with an error. */
  datatype Outcome = Pass | Fail(error: Error)
}

=== FILE: scenarios.dfy ===
/** Concrete walk-throughs of scenarios exercised by the repository's tests,
    replayed against the model with a provider whose candle calendar is
    written out. Instants are given as seconds since 0001-01-01T00:00:00;
    `CalendarInstants` ties each literal to its calendar date. */
module Scenarios {
  import opened Outcomes
  import opened Decimal
  import opened DateTimes
  import opened Granularities
  import opened Snapshots
  import opened Connect

  const Thu26Apr2018: int := 63660373200
  const Fri27Apr2018: int := 63660459600
  const Sun29Apr2018: int := 63660632400
  const Mon30Apr2018: int := 63660718800
  const Mon6May2002: int := 63156315600
  const Sun25Jan2015: int := 63557820000
  const Thu29Jan2015: int := 63558165600
  const Sun1Feb2015: int := 63558424800
  const Fri29Jan2010: int := 63400399200
  const Day: int := 86400

  lemma CalendarInstants()
    ensures ToSeconds(DateTime(2018, 4, 26, 21, 0, 0)) == Thu26Apr2018
    ensures ToSeconds(DateTime(2018, 4, 27, 21, 0, 0)) == Fri27Apr2018
    ensures ToSeconds(DateTime(2018, 4, 29, 21, 0, 0)) == Sun29Apr2018
    ensures ToSeconds(DateTime(2018, 4, 30, 21, 0, 0)) == Mon30Apr2018
    ensures ToSeconds(DateTime(2002, 5, 6, 21, 0, 0)) == Mon6May2002
    ensures ToSeconds(DateTime(2015, 1, 25, 22, 0, 0)) == Sun25Jan2015
    ensures ToSeconds(DateTime(2015, 1, 29, 22, 0, 0)) == Thu29Jan2015
    ensures ToSeconds(DateTime(2015, 2, 1, 22, 0, 0)) == Sun1Feb2015
    ensures ToSeconds(DateTime(2010, 1, 29, 22, 0, 0)) == Fri29Jan2010
  {
  }

  /** A provider that answers 200 when the window `[lo, hi)` holds one of
      `times`, and 204 otherwise. */
  function CalendarProbe(times: seq<int>): Probe {
    (lo: int, hi: int) => if exists i :: 0 <= i < |times| && lo <= times[i] < hi then 200 else NoContent
  }

  /** Daily AUD_USD bars around the weekend of 2018-04-28 (summer time: bars
      open at 21:00 UTC, none on Friday evening or Saturday). */
  const WeekendTimes: seq<int> := [Thu26Apr2018, Sun29Apr2018, Mon30Apr2018]

  lemma WeekendSteps()
    ensures StepClosed(CalendarProbe(WeekendTimes), Fri27Apr2018, Day, 0)
    ensures StepClosed(CalendarProbe(WeekendTimes), Fri27Apr2018, Day, 1)
    ensures FirstOpenStep(CalendarProbe(WeekendTimes), Fri27Apr2018, Day, 2)
  {
    var probe := CalendarProbe(WeekendTimes);
    assert probe(Fri27Apr2018, Fri27Apr2018 + 3 * Day) == 200 by {
      assert Fri27Apr2018 <= WeekendTimes[1] < Fri27Apr2018 + 3 * Day;
    }
  }

  lemma FridaySpelling()
    ensures FormatWith(DateTime(2018, 4, 27, 21, 0, 0), 'T') == "2018-04-27T21:00:00"
  {
    TwoDigitFields();
    YearDigits();
    FridayLayout();
  }

  lemma HistorySpelling()
    ensures FormatWith(DateTime(2002, 5, 6, 21, 0, 0), ' ') == "2002-05-06 21:00:00"
  {
    TwoDigitFields();
    YearDigits();
    HistoryLayout();
  }

  lemma FridayLayout()
    ensures Layout("2018", "04", "27", 'T', "21", "00", "00") == "2018-04-27T21:00:00"
  {
  }

  lemma HistoryLayout()
    ensures Layout("2002", "05", "06", ' ', "21", "00", "00") == "2002-05-06 21:00:00"
  {
  }

  lemma YearDigits()
    ensures Padded(2018, 4) == "2018" && Padded(2002, 4) == "2002"
  {
    assert Padded(2, 1) == "2";
    assert Padded(20, 2) == "20";
    assert Padded(200, 3) == "200";
    assert Padded(201, 3) == "201";
  }

  lemma TwoDigitFields()
    ensures Padded(4, 2) == "04" && Padded(27, 2) == "27" && Padded(5, 2) == "05"
    ensures Padded(6, 2) == "06" && Padded(21, 2) == "21" && Padded(0, 2) == "00"
  {
  }

  lemma FridayParses()
    ensures ParseIso("2018-04-27T21:00:00") == Ok(DateTime(2018, 4, 27, 21, 0, 0))
  {
    ParseFormat(DateTime(2018, 4, 27, 21, 0, 0), 'T');
    FridaySpelling();
  }

  lemma HistoryParses()
    ensures TryParsingDate("2002-05-06 21:00:00") == Ok(DateTime(2002, 5, 6, 21, 0, 0))
  {
    TryParsingDateAcceptsBoth(DateTime(2002, 5, 6, 21, 0, 0));
    HistorySpelling();
  }

  /** A start on Friday 21:00, when the market has closed for the weekend,
      rolls two days forward to the Sunday open. */
  lemma FridayEveningRollsToSunday()
    ensures ValidateDatetime(Connection("AUD_USD", "D"),
                             Config(true, map["AUD_USD" := "2002-05-06 21:00:00"], 10),
                             CalendarProbe(WeekendTimes), "2018-04-27T21:00:00")
            == Ok(Sun29Apr2018)
  {
    var conn := Connection("AUD_USD", "D");
    var cfg := Config(true, map["AUD_USD" := "2002-05-06 21:00:00"], 10);
    var probe := CalendarProbe(WeekendTimes);
    CalendarInstants();
    FridayParses();
    HistoryParses();
    DeltaOfName(0);
    WeekendSteps();
    assert HistoricalStart(conn, cfg) == Ok(Mon6May2002);
    RollFindsFirstOpenStep(conn, cfg, probe, Fri27Apr2018, 2);
  }

  /** `replace` drops every H, so "H1H2" is a twelve-hour period. */
  lemma SplitHourName()
    ensures Delta("H1H2") == Ok(12 * 3600)
  {
    SplitHourCount();
    TwelveReads();
    assert ParseGranularity("H1H2") == Ok(Hours(12));
  }

  lemma SplitHourCount()
    ensures RemoveAll("H1H2", 'H') == "12"
  {
    assert "H1H2" == "H1" + "H2";
    RemoveAllConcat("H1", "H2", 'H');
    assert RemoveAll("H1", 'H') == "1";
    assert RemoveAll("H2", 'H') == "2";
  }

  lemma TwelveReads()
    ensures ParseInt("12") == Ok(12)
  {
    assert "12"[..1] == "1";
    assert Value("12") == 12;
  }

  /** Every spelling of a zero hour count is refused by validation. */
  lemma ZeroHourSpellings()
    ensures ZeroHourCount("H0") && ZeroHourCount("H00") && ZeroHourCount("H-0")
  {
    ZeroHourPlain();
    ZeroHourPadded();
    ZeroHourNegative();
  }

  lemma ZeroHourPlain()
    ensures ZeroHourCount("H0")
  {
    assert RemoveAll("H0", 'H') == "0";
  }

  lemma ZeroHourPadded()
    ensures ZeroHourCount("H00")
  {
    assert RemoveAll("H00", 'H') == "00";
    assert "00"[..1] == "0";
  }

  lemma ZeroHourNegative()
    ensures ZeroHourCount("H-0")
  {
    assert RemoveAll("H-0", 'H') == "-0";
    assert "-0"[1..] == "0";
  }

  /** Ten daily bars stored from 2015-01-25 22:00 (Sunday to Thursday
      openings). */
  function StoredBars(): seq<Candle> {
    [ Bar(0), Bar(1), Bar(2), Bar(3), Bar(4), Bar(7), Bar(8), Bar(9), Bar(10), Bar(11) ]
  }

  /** The daily bar opening `days` days after 2015-01-25 22:00. */
  function Bar(days: int): Candle {
    Candle(Sun25Jan2015 + days * Day, map[])
  }

  lemma KeptBeforeThursday()
    ensures KeepFrom(StoredBars()[..4], Thu29Jan2015) == []
  {
    var cs := StoredBars();
    assert cs[..0] == [];
    KeepFromStep(cs, 0, Thu29Jan2015);
    KeepFromStep(cs, 1, Thu29Jan2015);
    KeepFromStep(cs, 2, Thu29Jan2015);
    KeepFromStep(cs, 3, Thu29Jan2015);
  }

  lemma KeptThroughThursday()
    ensures KeepFrom(StoredBars()[..5], Thu29Jan2015) == [Bar(4)]
  {
    var cs := StoredBars();
    KeptBeforeThursday();
    KeepFromStep(cs, 4, Thu29Jan2015);
    assert KeepFrom(cs[..5], Thu29Jan2015) == KeepFrom(cs[..4], Thu29Jan2015) + [cs[4]];
  }

  lemma KeptThroughSunday()
    ensures KeepFrom(StoredBars()[..6], Thu29Jan2015) == [Bar(4), Bar(7)]
  {
    var cs := StoredBars();
    KeptThroughThursday();
    KeepFromStep(cs, 5, Thu29Jan2015);
    assert KeepFrom(cs[..6], Thu29Jan2015) == KeepFrom(cs[..5], Thu29Jan2015) + [cs[5]];
  }

  lemma KeptThroughMonday()
    ensures KeepFrom(StoredBars()[..7], Thu29Jan2015) == [Bar(4), Bar(7), Bar(8)]
  {
    var cs := StoredBars();
    KeptThroughSunday();
    KeepFromStep(cs, 6, Thu29Jan2015);
    assert KeepFrom(cs[..7], Thu29Jan2015) == KeepFrom(cs[..6], Thu29Jan2015) + [cs[6]];
  }

  lemma KeptFrom2010()
    ensures KeepFrom(StoredBars()[..6], Fri29Jan2010) == StoredBars()[..6]
  {
    KeepFromAllEligible(StoredBars()[..6], Fri29Jan2010);
  }

  /** Thursday 22:00 to Sunday 22:00 holds two bars; three bars from Thursday
      are Thursday, Sunday and Monday; a start long before the snapshot
      returns it from its first bar. */
  lemma StoredBarsSlices()
    ensures EndSlice(StoredBars(), Thu29Jan2015, Sun1Feb2015) == [Bar(4), Bar(7)]
    ensures CountSlice(StoredBars(), Thu29Jan2015, 3) == [Bar(4), Bar(7), Bar(8)]
    ensures EndSlice(StoredBars(), Fri29Jan2010, Sun1Feb2015) == StoredBars()[..6]
  {
    var cs := StoredBars();
    assert FirstPast(cs, Sun1Feb2015 + Slack) == 6 by {
      assert cs[6].time > Sun1Feb2015 + Slack;
    }
    KeptThroughSunday();
    KeptThroughMonday();
    KeptFrom2010();
    KeepFromPrefix(cs, 7, Thu29Jan2015);
  }
}

=== FILE: snapshot.dfy ===
/** Re-querying a locally stored snapshot (`Connect.__parse_ser_data`).

    A snapshot is the decoded JSON document of an earlier fetch: its candle
    list plus the remaining keys, which are carried over untouched. Candle
    times are already-parsed instants in whole seconds. The slice is either
    end-bounded or count-bounded; both edges are tolerant by one hour to absorb
    daylight-saving skew.

    `ParseSerData` follows the source loop step by step; `EndSlice` and
    `CountSlice` are declarative reference definitions it is proved against. */
module Snapshots {

  /** `delta1hr`, the tolerance at both edges of the slice. */
  const Slack: int := 3600

  datatype Candle = Candle(time: int, prices: map<string, string>)

  /** `header` holds every key of the document other than `candles`. */
  datatype Snapshot = Snapshot(header: map<string, string>, candles: seq<Candle>)

  /** The second half of a query window: an end instant or a candle count. */
  datatype Bound = Until(end: int) | Count(n: int)

  /** The `params` dictionary built by `query`. */
  datatype QueryParams = QueryParams(instrument: string, granularity: string, start: int, bound: Bound)

  function Abs(x: int): nat {
    if x < 0 then -x else x
  }

  function Min(a: int, b: int): int {
    if a < b then a else b
  }

  function Max(a: int, b: int): int {
    if a < b then b else a
  }

  // ---------------------------------------------------------------------
  // Reference definitions

  /** The candles of `cs` at or after `start`, less one hour, in order. */
  function KeepFrom(cs: seq<Candle>, start: int): (r: seq<Candle>)
    ensures |r| <= |cs|
  {
    if |cs| == 0 then []
    else
      var init := cs[..|cs| - 1];
      var last := cs[|cs| - 1];
      assert cs == init + [last];
      KeepFrom(init, start) + (if last.time >= start - Slack then [last] else [])
  }

  /** A candle is kept exactly when it is in the input and at or after
      `start` less one hour. */
  lemma {:induction false} KeepFromMembers(cs: seq<Candle>, start: int)
    ensures forall c :: c in KeepFrom(cs, start) <==> c in cs && c.time >= start - Slack
    decreases |cs|
  {
    if |cs| > 0 {
      var init := cs[..|cs| - 1];
      KeepFromMembers(init, start);
      assert cs == init + [cs[|cs| - 1]];
    }
  }

  /** The position of the first candle later than `limit`, or `|cs|`. */
  function FirstPast(cs: seq<Candle>, limit: int): (k: nat)
    ensures k <= |cs|
    ensures forall j :: 0 <= j < k ==> cs[j].time <= limit
    ensures k < |cs| ==> cs[k].time > limit
  {
    if |cs| == 0 || cs[0].time > limit then 0 else 1 + FirstPast(cs[1..], limit)
  }

  /** The first `n` elements of `s`, or all of them, or none when `n <= 0`. */
  function Prefix(s: seq<Candle>, n: int): (r: seq<Candle>)
    ensures |r| == Min(Max(n, 0), |s|)
    ensures r == s[..|r|]
  {
    s[..Min(Max(n, 0), |s|)]
  }

  /** End-bounded slice: scan up to the first candle more than an hour past
      `end`, and keep those at or after `start` less one hour. */
  function EndSlice(cs: seq<Candle>, start: int, end: int): (r: seq<Candle>)
    ensures forall c :: c in r ==> c in cs && start - Slack <= c.time <= end + Slack
  {
    var k := FirstPast(cs, end + Slack);
    KeepFromMembers(cs[..k], start);
    assert forall c :: c in cs[..k] ==> c in cs && c.time <= end + Slack;
    KeepFrom(cs[..k], start)
  }

  /** Count-bounded slice: the first `n` candles at or after `start` less one
      hour. */
  function CountSlice(cs: seq<Candle>, start: int, n: int): (r: seq<Candle>)
    ensures |r| <= Max(n, 0)
    ensures |r| == Min(Max(n, 0), |KeepFrom(cs, start)|)
    ensures forall c :: c in r ==> c in cs && c.time >= start - Slack
  {
    KeepFromMembers(cs, start);
    Prefix(KeepFrom(cs, start), n)
  }

  function Slice(cs: seq<Candle>, start: int, bound: Bound): seq<Candle> {
    match bound
    case Until(end) => EndSlice(cs, start, end)
    case Count(n) => CountSlice(cs, start, n)
  }

  // ---------------------------------------------------------------------
  // The loop of the source

  lemma KeepFromStep(cs: seq<Candle>, i: nat, start: int)
    requires i < |cs|
    ensures KeepFrom(cs[..i + 1], start)
            == KeepFrom(cs[..i], start) + (if cs[i].time >= start - Slack then [cs[i]] else [])
  {
    assert cs[..i + 1][..i] == cs[..i];
  }

  /** The end-bounded branch of the loop: keep a candle when it is within an
      hour of `[start, end]`; stop at the first one more than an hour past
      `end`. */
  method ScanUntil(cs: seq<Candle>, start: int, end: int) returns (kept: seq<Candle>)
    ensures kept == EndSlice(cs, start, end)
  {
    kept := [];
    var i := 0;
    while i < |cs|
      invariant 0 <= i <= |cs|
      invariant forall j :: 0 <= j < i ==> cs[j].time <= end + Slack
      invariant kept == KeepFrom(cs[..i], start)
    {
      var c := cs[i];
      KeepFromStep(cs, i, start);
      if (c.time >= start || Abs(c.time - start) <= Slack)
         && (c.time <= end || Abs(c.time - end) <= Slack) {
        kept := kept + [c];
      } else if c.time >= end && Abs(c.time - end) > Slack {
        assert FirstPast(cs, end + Slack) == i;
        return;
      }
      i := i + 1;
    }
    assert cs[..i] == cs;
  }

  /** The count-bounded branch of the loop: keep a candle within an hour of
      `start` or later while fewer than `n` are kept; stop once more than `n`
      have been counted. */
  method ScanCount(cs: seq<Candle>, start: int, n: int) returns (kept: seq<Candle>)
    ensures kept == CountSlice(cs, start, n)
  {
    kept := [];
    var ct := 0;
    var i := 0;
    while i < |cs|
      invariant 0 <= i <= |cs|
      invariant ct == |kept| <= Max(n, 0)
      invariant kept == Prefix(KeepFrom(cs[..i], start), n)
    {
      var c := cs[i];
      KeepFromStep(cs, i, start);
      if (c.time >= start || Abs(c.time - start) <= Slack) && ct < n {
        ct := ct + 1;
        kept := kept + [c];
      } else if ct > n {
        return;
      }
      i := i + 1;
    }
    assert cs[..i] == cs;
  }

  /** Filtering a prefix gives a prefix of the filtered whole. */
  lemma {:induction false} KeepFromPrefix(cs: seq<Candle>, i: nat, start: int)
    requires i <= |cs|
    ensures var whole := KeepFrom(cs, start);
            var part := KeepFrom(cs[..i], start);
            |part| <= |whole| && whole[..|part|] == part
    decreases |cs| - i
  {
    if i == |cs| {
      assert cs[..i] == cs;
    } else {
      var init := cs[..|cs| - 1];
      assert init[..i] == cs[..i];
      KeepFromPrefix(init, i, start);
    }
  }

  /** `__parse_ser_data` on an already decoded snapshot: the other keys are
      copied, the candle list is replaced by its slice. */
  method ParseSerData(snap: Snapshot, params: QueryParams) returns (r: Snapshot)
    ensures r.header == snap.header
    ensures r.candles == Slice(snap.candles, params.start, params.bound)
  {
    var kept: seq<Candle>;
    match params.bound {
      case Until(end) =>
        kept := ScanUntil(snap.candles, params.start, end);
      case Count(n) =>
        kept := ScanCount(snap.candles, params.start, n);
    }
    r := Snapshot(snap.header, kept);
  }

  // ---------------------------------------------------------------------
  // Properties of the slices

  /** `a` is `b` with some elements dropped, order kept. */
  predicate IsSubsequence(a: seq<Candle>, b: seq<Candle>)
    decreases |b|
  {
    if |a| == 0 then true
    else if |b| == 0 then false
    else
      || (a[|a| - 1] == b[|b| - 1] && IsSubsequence(a[..|a| - 1], b[..|b| - 1]))
      || IsSubsequence(a, b[..|b| - 1])
  }

  predicate Ascending(cs: seq<Candle>) {
    forall i, j :: 0 <= i < j < |cs| ==> cs[i].time <= cs[j].time
  }

  /** Every candle within an hour of `[start, end]`, wherever it sits. */
  function KeepWithin(cs: seq<Candle>, start: int, end: int): (r: seq<Candle>)
  {
    if |cs| == 0 then []
    else
      var last := cs[|cs| - 1];
      KeepWithin(cs[..|cs| - 1], start, end)
      + (if start - Slack <= last.time <= end + Slack then [last] else [])
  }

  lemma {:induction false} KeepFromIsSubsequence(cs: seq<Candle>, start: int)
    ensures IsSubsequence(KeepFrom(cs, start), cs)
    decreases |cs|
  {
    if |cs| > 0 {
      var init := cs[..|cs| - 1];
      KeepFromIsSubsequence(init, start);
      var k := KeepFrom(cs, start);
      if cs[|cs| - 1].time >= start - Slack {
        assert k[..|k| - 1] == KeepFrom(init, start);
      } else {
        assert k == KeepFrom(init, start);
      }
    }
  }

  lemma {:induction false} SubsequenceOfPrefix(a: seq<Candle>, b: seq<Candle>, k: nat)
    requires k <= |b|
    requires IsSubsequence(a, b[..k])
    ensures IsSubsequence(a, b)
    decreases |b| - k
  {
    if k == |b| {
      assert b[..k] == b;
    } else {
      var init := b[..|b| - 1];
      assert init[..k] == b[..k];
      SubsequenceOfPrefix(a, init, k);
    }
  }

  lemma {:induction false} DropLastOfSubsequence(a: seq<Candle>, b: seq<Candle>)
    requires |a| > 0
    requires IsSubsequence(a, b)
    ensures IsSubsequence(a[..|a| - 1], b)
    decreases |b|
  {
    var init := b[..|b| - 1];
    if a[|a| - 1] == b[|b| - 1] && IsSubsequence(a[..|a| - 1], init) {
    } else {
      DropLastOfSubsequence(a, init);
    }
  }

  lemma {:induction false} PrefixOfSubsequence(a: seq<Candle>, b: seq<Candle>, m: nat)
    requires m <= |a|
    requires IsSubsequence(a, b)
    ensures IsSubsequence(a[..m], b)
    decreases |a| - m
  {
    if m == |a| {
      assert a[..m] == a;
    } else {
      DropLastOfSubsequence(a, b);
      var init := a[..|a| - 1];
      assert init[..m] == a[..m];
      PrefixOfSubsequence(init, b, m);
    }
  }

  /** The end-bounded slice keeps input order and only drops candles. */
  lemma EndSliceIsSubsequence(cs: seq<Candle>, start: int, end: int)
    ensures IsSubsequence(EndSlice(cs, start, end), cs)
  {
    var k := FirstPast(cs, end + Slack);
    KeepFromIsSubsequence(cs[..k], start);
    SubsequenceOfPrefix(EndSlice(cs, start, end), cs, k);
  }

  /** The count-bounded slice keeps input order and only drops candles. */
  lemma CountSliceIsSubsequence(cs: seq<Candle>, start: int, n: int)
    ensures IsSubsequence(CountSlice(cs, start, n), cs)
  {
    var k := KeepFrom(cs, start);
    KeepFromIsSubsequence(cs, start);
    PrefixOfSubsequence(k, cs, Min(Max(n, 0), |k|));
  }

  lemma {:induction false} KeepFromAllEligible(cs: seq<Candle>, start: int)
    requires forall i :: 0 <= i < |cs| ==> cs[i].time >= start - Slack
    ensures KeepFrom(cs, start) == cs
    decreases |cs|
  {
    if |cs| > 0 {
      var init := cs[..|cs| - 1];
      KeepFromAllEligible(init, start);
    }
  }

  /** Re-slicing a snapshot whose candles all lie within an hour of the
      window returns every candle: a fetched range survives being stored and
      sliced again with the same bounds. */
  lemma EndSliceKeepsWindow(cs: seq<Candle>, start: int, end: int)
    requires forall i :: 0 <= i < |cs| ==> start - Slack <= cs[i].time <= end + Slack
    ensures EndSlice(cs, start, end) == cs
  {
    assert FirstPast(cs, end + Slack) == |cs|;
    assert cs[..|cs|] == cs;
    KeepFromAllEligible(cs, start);
  }

  /** Slicing a slice again with the same bounds changes nothing. */
  lemma EndSliceIdempotent(cs: seq<Candle>, start: int, end: int)
    ensures EndSlice(EndSlice(cs, start, end), start, end) == EndSlice(cs, start, end)
  {
    var r := EndSlice(cs, start, end);
    assert forall i :: 0 <= i < |r| ==> r[i] in r;
    EndSliceKeepsWindow(r, start, end);
  }

  lemma CountSliceIdempotent(cs: seq<Candle>, start: int, n: int)
    ensures CountSlice(CountSlice(cs, start, n), start, n) == CountSlice(cs, start, n)
  {
    var r := CountSlice(cs, start, n);
    assert forall i :: 0 <= i < |r| ==> r[i] in r;
    KeepFromAllEligible(r, start);
  }

  lemma {:induction false} KeepWithinPastLimit(cs: seq<Candle>, start: int, end: int, k: nat)
    requires k <= |cs|
    requires forall j :: k <= j < |cs| ==> cs[j].time > end + Slack
    ensures KeepWithin(cs, start, end) == KeepWithin(cs[..k], start, end)
    decreases |cs| - k
  {
    if k < |cs| {
      var init := cs[..|cs| - 1];
      assert init[..k] == cs[..k];
      KeepWithinPastLimit(init, start, end, k);
    } else {
      assert cs[..k] == cs;
    }
  }

  lemma {:induction false} KeepWithinBelowLimit(cs: seq<Candle>, start: int, end: int)
    requires forall j :: 0 <= j < |cs| ==> cs[j].time <= end + Slack
    ensures KeepWithin(cs, start, end) == KeepFrom(cs, start)
    decreases |cs|
  {
    if |cs| > 0 {
      KeepWithinBelowLimit(cs[..|cs| - 1], start, end);
    }
  }

  /** On time-ordered candles the early `break` loses nothing: the
      end-bounded slice is exactly the candles within an hour of the window. */
  lemma SortedEndSlice(cs: seq<Candle>, start: int, end: int)
    requires Ascending(cs)
    ensures EndSlice(cs, start, end) == KeepWithin(cs, start, end)
  {
    var k := FirstPast(cs, end + Slack);
    KeepWithinPastLimit(cs, start, end, k);
    KeepWithinBelowLimit(cs[..k], start, end);
  }
}
